=== FILE: README.md ===
# go-netssh handshake and forwarding core, modelled in Dafny

go-netssh builds a byte-stream tunnel on top of an ssh session. The dialing
side (`Dial`) spawns `ssh` with a forced command on the remote host. That
command runs the forwarder (`Proxy`). The forwarder connects to a local unix
socket and hands its own stdin and stdout to the accepting server
(`Listener.Accept`) by descriptor passing. The two ends then exchange 31-byte
sentinel frames. The server sends the ready banner, and the dialer answers
with the begin message. After that the ssh channel carries the data directly,
and the forwarder only waits for the one status byte the server sends when it
closes the connection.

The model keeps the decision logic and replaces every socket, process and
file descriptor by a scripted result:

- a read is a `Stream` made of the bytes the peer delivers and the error
  that ends the stream (`io.CopyN` semantics);
- a write, close or setter is an `Option<Error>`;
- the `select` in `Dial` is a `Race` value saying which arm fires.

Each operation is a pure function. It returns what the Go code returns, plus
the ordered trace of its observable effects (bytes written, streams closed).

Modules, following the source:

- `Base`: bytes, options, results, scripted streams, and the `%d` and `%v`
  renderings.
- `Framing`: `mustMessage` and the three frames.
- `Errors`: the error taxonomy and `SSHError.Error`.
- `CommandLine`: `Endpoint.CmdArgs`.
- `Dialer`: the handshake goroutine and `Dial`.
- `Forwarder`: `Proxy`.
- `Serve`: the `ServeConn` operations and `Listener.Accept`.
- `Tunnel`: lemmas that connect the three actors through the bytes they
  exchange.

## Model

| member | source | states |
|---|---|---|
| Base.DecimalRoundTrip | dial.go:33 | the `%d` rendering of the port reads back to the same number, so it loses nothing |
| CommandLine.OptionArgs | dial.go:38-40 | each configured option becomes the pair `-o`, option, in the configured order |
| CommandLine.CmdArgs | dial.go:23-46 | the program is `SSHCommand` when non-empty, otherwise `ssh`; the arguments are `-p port -T -i identity -o BatchMode=yes`, then `-o opt` for every option in order, then `user@host` last, 2*len(Options)+8 in all; the environment is empty |
| CommandLine.CmdArgsRoundTrip | dial.go:31-41 | port, identity file, every option in order, and the target can be read back from the argument vector by an independent parser |
| CommandLine.CmdArgsInjective | dial.go:23-46 | two endpoints that give the same invocation agree on port, identity, options and target |
| Framing.Pad | dial.go:103-109 | the frame is the text followed by zero bytes up to 31 bytes |
| Framing.MustMessage | dial.go:94-110 | succeeds exactly when the text is at most 31 bytes (so 31 is accepted) and not registered; a longer text panics; the result is the zero-padded 31-byte frame |
| Framing.UnpadPad | dial.go:103-109 | stripping the zero padding recovers every text that does not itself end in a zero byte |
| Framing.FrameDeterminesText | dial.go:103-109 | two such texts never share a frame |
| Framing.MessagesAreFrames | dial.go:111-113 | `banner_msg`, `proxy_error_msg` and `begin_msg` are each 31 bytes: their text, then zeros |
| Framing.MessagesDistinct | dial.go:111-113 | the three messages are pairwise distinct, which follows from their texts and not from the duplicate check |
| Framing.DuplicateCheckIsDead | dial.go:95-102 | with the registry as the code leaves it (empty), every text of at most 31 bytes is accepted, any number of times |
| Framing.RegisterMessage | dial.go:95-110 | the corrected construction: it succeeds exactly when `mustMessage` would, and it records the text |
| Framing.RegisteringTwicePanics | dial.go:100-102 | with the registry kept up to date, building the same text a second time panics with "duplicate message" |
| Framing.RegisteredMessagesAgree | dial.go:111-113 | building the three messages through the corrected registry succeeds and gives the same frames |
| Base.FormatBytesInjective | dial.go:203 | the `%v` rendering of a byte slice, bracketed space-separated decimals, loses nothing: distinct slices give distinct texts |
| Errors.ProtocolTextInjective | dial.go:200-203 | the text of a `ProtocolError` (its `Error()` at dial.go:164-166 returns `What`) names its cause: the proxy error text differs from every unknown-banner text, and the received frame can be read back from the latter; the third cause, a missing begin message, exists only for the corrected `Serve.AcceptChecked` |
| Errors.IndexByte | dial.go:143 | `bytes.Index` for a newline: -1 exactly when there is none, otherwise the first position holding one |
| Errors.TrimLeft | dial.go:146 | drops exactly the leading white space |
| Errors.TrimRight | dial.go:146 | drops exactly the trailing white space |
| Errors.TrimSpace | dial.go:146 | the result is the infix of the input with only white space before and after it; it is empty exactly when the input is all white space, and otherwise starts and ends with a non-space byte |
| Errors.OnelineFlagMeansSingleLine | dial.go:141-145 | "first newline is the last byte" holds exactly for output that is a single line ended by its only newline, or empty (where -1 equals len-1) |
| Errors.SSHErrorText | dial.go:121-157 | EOF gives "ssh exited unexpectedly with exit status 0"; an error that is not an exit error gives "ssh: " and its text; an exit error with no output, with one line of output, or with other output gives the "terminated without stderr output", the inline-quoted trimmed line, or the block form, each with the exit code or signal |
| Errors.EmptyStderrIsReportedAsNoOutput | dial.go:141-156 | empty stderr is reported as "terminated without stderr output" although the one-line flag is set for it |
| Errors.SingleLineIsQuotedWithoutNewline | dial.go:143-150 | one line of output ending in a newline is quoted inline without the newline |
| Dialer.Handshake | dial.go:188-212 | reading fewer than 31 bytes gives `SSHError` "read banner" with the stream's error; the banner leads to writing `begin_msg`, and a failure there gives `SSHError` "send begin message"; the proxy error frame gives `ProtocolError` "proxy error"; any other frame gives `ProtocolError` "unknown banner" carrying the bytes; nothing is sent on the channel exactly when the banner arrived and the begin write succeeded |
| Dialer.Dial | dial.go:175-236 | a connection is returned exactly when the command started, the handshake won the race and succeeded, and it wraps the invocation built from the endpoint; a context that is done first cancels the command and returns the context's error; a handshake error that comes first cancels the command and is returned unchanged; create and start errors are returned as they are, without cancelling |
| Dialer.DialErrorKinds | dial.go:168-174 | once ssh runs, every error is the context's error, a `ProtocolError` or an `SSHError`, and the context's error exactly when the context won |
| Dialer.CleanExitBeforeBanner | dial.go:123-126 | ssh exiting with status 0 before sending a banner fails `Dial` with an error that reads as an unexpected clean exit |
| Forwarder.FinalStatus | serve.go:91-104 | any error other than EOF is returned, and so is a nil error, so a read without an error is success whatever it read; at EOF, success exactly when one zero byte was read, and otherwise the "abnormal termination" error |
| Forwarder.FinalStatusIntended | serve.go:91-104 | the corrected decision: success exactly when one zero byte was read with no error or with EOF |
| Forwarder.NonzeroStatusIsSuccess | serve.go:92-97 | a read of status byte 1 without an error is success as written and abnormal in the corrected decision |
| Forwarder.IntendedIsStricter | serve.go:92-101 | every read the corrected decision accepts is accepted as written too, and at EOF the two decisions agree |
| Forwarder.Proxy | serve.go:49-105 | steps run in the fixed order dial, set stdin non-blocking, set stdout non-blocking, put the fds, write and sync the error frame, read the status, close, each at most once; each setup step is taken exactly when every earlier one succeeded; the error frame is synced exactly when the dial or the fd hand-off failed; each failing step returns its own error unchanged; the connection is closed last on every exit after a successful dial; the status is read only when all setup succeeded, and then the result is the final decision's |
| Forwarder.InOrderPairwise | serve.go:49-105 | steps ordered neighbour by neighbour are ordered pairwise, so `Proxy` never takes a step kind twice or out of order |
| Forwarder.SendProxyErrorBytes | serve.go:53-61 | `trySendProxyError` puts exactly the 31 bytes of `proxy_error_msg` on stdout |
| Forwarder.ProxyStdout | serve.go:53-89 | the only bytes the forwarder writes to stdout are one `proxy_error_msg`, written exactly when the dial or the fd hand-off fails; a non-blocking failure writes nothing |
| Forwarder.ExitCode | serve.go:47-48 | the host process exits with status 0 exactly when `Proxy` returns nil |
| Serve.Read | serve.go:114-122 | the count is returned unchanged; nil and EOF pass through; every other error is wrapped in `IOError` |
| Serve.ReadDistinguishesPeerClose | serve.go:114-122 | a caller can tell a peer close (EOF) from a transport failure (`IOError`) and recover the underlying error |
| Serve.Write | serve.go:124-132 | the count is returned unchanged; every error, EOF included, is wrapped in `IOError`; nil stays nil |
| Serve.Close | serve.go:134-141 | stdin and then stdout are closed first; exactly one byte, `proxyFeedback`, is written to the control socket; the control socket is closed last; only its close error is returned |
| Serve.CloseReportsOnlyControlClose | serve.go:134-141 | the errors of closing stdin and stdout and of writing the status byte are dropped: changing them changes neither the trace nor the returned error |
| Serve.DeliveredFeedback | serve.go:138-139 | the forwarder receives the one status byte `Close` writes when that write succeeds, and nothing when it fails |
| Serve.ClosingBytes | serve.go:134-141 | the closing sequence writes its one status byte to the control socket and nothing to stdout |
| Serve.SetReadDeadline | serve.go:147-149 | sets the read deadline of stdin when the setter succeeds, touching nothing else |
| Serve.SetWriteDeadline | serve.go:151-153 | calls the READ-deadline setter of stdout: on success stdout's read deadline becomes `t`, while the write deadline of the stream that `Write` uses never changes; stdin, the stream's name and the status byte are kept |
| Serve.SetWriteDeadlineIntended | serve.go:151-153 | the corrected setter: on success sets the write deadline of stdout, leaving its read deadline, its name, stdin and the status byte as they were |
| Serve.SetDeadline | serve.go:155-166 | both setters are always called, the write setter first; the write setter's error wins, then the read setter's, else nil; the status byte and both streams' names are kept; a successful write setter sets stdout's read deadline and a successful read setter sets stdin's; the write deadlines of stdin and stdout are never set |
| Serve.SetDeadlineIntended | serve.go:155-166 | with the corrected write setter, each successful setter sets its own deadline (stdout write, stdin read) and nothing else changes; a fully successful call sets both |
| Serve.SetDeadlineMissesWrites | serve.go:151-166 | a fully successful `SetDeadline` leaves the write deadline unset; the corrected version sets it |
| Serve.Accept | serve.go:185-224 | an accept error is returned with no effects; an `fd.Get` error closes the unix connection and is returned, with no `ServeConn`; otherwise `files[0]` becomes stdin, `files[1]` stdout, and the status byte is 0; the 31-byte banner is written first, and after a successful write the one 31-byte read comes next; a failed write is followed directly by the full close (stdin, stdout, status byte 0, control socket), five effects in all, and a short read by the same close after it, six in all; the error is returned; success needs only that 31 bytes arrive, and its trace is exactly the banner write and the read |
| Serve.Greet | serve.go:208-222 | on a built connection, the 31-byte banner is written first, and after a successful write the one 31-byte read comes next; a failed write is followed directly by the full close (stdin, stdout, the status byte, control socket), five effects in all, and a short read by the same close after it, six in all; the error is returned; success needs only that 31 bytes arrive, leaves exactly the banner write and the read, and returns the connection unchanged |
| Serve.ThenClose | serve.go:211-219 | closing after the banner exchange keeps the banner as the only stdout bytes and ends the trace with the closing sequence |
| Serve.AcceptIgnoresBeginBytes | serve.go:215-222 | the outcome of `Accept` does not depend on which 31 bytes arrive in place of `begin_msg` |
| Serve.AcceptChecked | serve.go:215-222 | the corrected accept: success exactly when the frame read is `begin_msg`; any other frame appends the full close (stdin, stdout, status byte 0, control socket) to the trace and returns a protocol error |
| Serve.DeadlinesKeepFeedback | serve.go:147-166 | no sequence of deadline calls changes the status byte |
| Serve.AcceptedConnCloseSendsZero | serve.go:206 | every `Close` of an accepted connection, after any deadline calls, writes exactly the byte 0, and the forwarder receives it unless that write fails |
| Tunnel.HandshakeAgreement | dial.go:195-211 | the dialer reading what `Accept` wrote sends `begin_msg` and `Dial` returns the connection; `Accept`, including the corrected one, reading those bytes succeeds |
| Tunnel.ForwarderSetupFailureIsProtocolError | serve.go:64-89 | a forwarder that cannot dial the socket or hand over the fds makes `Dial` fail with the "check remote configuration" `ProtocolError`, and exits non-zero |
| Tunnel.ProxyErrorFrameFailsDial | dial.go:191-201 | whatever bytes follow `proxy_error_msg` on the command's stdout, `Dial` reads only the first 31 and fails with the "check remote configuration" `ProtocolError` |
| Tunnel.SilentPeerFailsDial | dial.go:191-193 | a command that writes nothing before it ends makes `Dial` fail with an `SSHError` "read banner" whose cause is how the command ended |
| Tunnel.NonblockFailureIsSSHError | serve.go:73-81 | a non-blocking failure puts nothing on stdout, so a `Dial` reading the forwarder's own output fails with an `SSHError` "read banner" carrying the forwarder's exit status 1 |
| Tunnel.CloseEndsForwarderCleanly | serve.go:91-104 | after `Close` of an accepted connection, a forwarder whose setup succeeded reports success and exits 0 exactly when the status byte's write succeeds, and otherwise reports abnormal termination; the corrected decision agrees |
| Tunnel.StatusByteVerdicts | serve.go:92-101 | as written every status byte that arrives reads as success; the corrected decision accepts only an arriving 0; a byte whose write failed, or a server that closes without one, is abnormal under both |

## Left out

- `SSHConn` `Read`, `Write`, `Close`, `Cmd`, `LocalAddr` and `RemoteAddr`, and `ServeConn` `CloseWrite`, `LocalAddr` and `RemoteAddr`: one-line pass-throughs to the underlying channel or stream.
- `Listen`, `Listener.Close`, `Listener.Addr` and `Listener.SetLog`: thin wrappers (an error check and a wrap, pass-throughs, and a setter) with no logic of the package's own.
- The process-backed channel (`rwccmd`), `fd.Put` and `fd.Get`, `unix.SetNonblock`, `net.Dial`, the listener's accept call, and real deadlines. Each is a scripted success or failure, and deadlines are abstract integer instants.
- Logging (`contextLog`, `ContextWithLog`, the default `discardLog` in `Accept`, every `log.Printf`): side effects only.
- Goroutine scheduling in `Dial`. Only the outcome of the `select` is modelled. When the context wins, draining the handshake's result is not modelled; the result is discarded.
- `os.Stdout.Sync` is a step in the trace. The write error inside `trySendProxyError` is only logged, so it does not change the trace.
- The `mustMessage` panic for a short `WriteString`: `bytes.Buffer.WriteString` always writes every byte, so it cannot fire.
- Wait statuses other than exited and signalled (stopped, continued). Signal names are given as strings.
- The text of `IOError`: errors.go is not part of this model.
- `fd.Get` is taken to return the descriptors or an error. If it returned fewer than two without an error, `files[1]` would panic; the model shows this as the `IndexPanic` outcome.
- Errors.TrimSpace: trims ASCII white space only, because the Unicode white space that `bytes.TrimSpace` also removes from UTF-8 input is not modelled.
- Tunnel.ReadControl: takes the forwarder's one-byte read of the control socket to return the byte with a nil error when one was delivered, and (0, EOF) when none was, as reads through Go's `net` package do: a read that returns data reports no error, and EOF comes only with no data. `Forwarder.FinalStatus` also covers a byte returned together with EOF, but `Tunnel.StatusByteVerdicts` and `Tunnel.CloseEndsForwarderCleanly` rest on the `net` behaviour.
- Tunnel.ForwarderSetupFailureIsProtocolError: treats the error frame that `trySendProxyError` writes as delivered; a failed or partial write of it (only logged, serve.go:57-60) would leave `Dial` with a short read or another frame instead.
- Serve.DeliveredFeedback: a one-byte write either delivers its byte or fails; a failed write is taken to deliver nothing.
- Dialer.Handshake: records the begin message as sent when its write is attempted, because a partial write is reported only through the write error.
- The demonstration commands and the operating-system deadline tests: they are not part of the package logic.

Where the code's own names, messages and comments suggest more than the code does, the model follows the code:

- `Accept` reads the frame it calls the begin message (serve.go:216-217, sized by `begin_msg` and logged as "error reading begin message"), but never compares it with `begin_msg` (`Serve.AcceptIgnoresBeginBytes`).
- The `proxyFeedback` field (serve.go:111) is the byte `Close` sends (serve.go:138). `Accept` sets it to 0 (serve.go:206) and nothing else assigns it, so the forwarder never hears of an abnormal end from it (`Serve.AcceptedConnCloseSendsZero`).
- The `Dial` doc comment lists only the context's error, `ProtocolError` and `*SSHError`. A failure to create or start the command returns that raw error instead, and `commandCancel` is not called on those paths (`Dialer.Dial`).

## Findings

| source | as written | input that shows it | evidently intended | confidence | as-written member | corrected member |
|---|---|---|---|---|---|---|
| serve.go:215-220 | `Accept` reads 31 bytes after the banner and never compares them with `begin_msg` | stdin delivers `proxy_error_msg`, or any other 31 bytes, after the banner: `Accept` returns a live connection | a frame other than `begin_msg` is a protocol error and the connection is closed | medium, not executed | Serve.AcceptIgnoresBeginBytes | Serve.AcceptChecked |
| serve.go:92-97 | `if err != io.EOF { return err }` also returns for `err == nil`, so a byte read without an error is success whatever its value | the final read returns one byte 1 and a nil error: `Proxy` returns nil and the host exits 0 | success only for a single zero byte | high, not executed | Forwarder.NonzeroStatusIsSuccess | Forwarder.FinalStatusIntended |
| serve.go:151-153 | `SetWriteDeadline` calls `stdout.SetReadDeadline` | `SetDeadline(t)` with both setters succeeding: the write deadline of stdout stays unset, so writes are not bounded | `stdout.SetWriteDeadline(t)` | high, not executed | Serve.SetDeadlineMissesWrites | Serve.SetDeadlineIntended |
| dial.go:95-102 | the `messages` map is never written, so the duplicate check never fires | `mustMessage("SSHCON_HELO")` called twice: both calls succeed | record each message so that a second use of the same text panics | high, not executed | Framing.DuplicateCheckIsDead | Framing.RegisteringTwicePanics |

=== FILE: base.dfy ===
/** Shared vocabulary of the model: bytes, optional values and results, scripted
    input streams, and the decimal and byte-slice renderings that the package
    obtains from Go's `fmt`.
 */
module Base {

  /** One octet on the wire. */
  newtype byte = x: int | 0 <= x < 256

  /** Go's `nil`-or-value pairs become an explicit option. */
  datatype Option<T> = None | Some(value: T)

  /** A return value or the error returned in its place. */
  datatype Result<T, E> = Ok(value: T) | Err(error: E)

  /** A scripted reader: the bytes the peer delivers before the stream ends, and
      the error that ends it (`io.EOF` for a clean end). */
  datatype Stream<E> = Stream(data: seq<byte>, end: E)

  /** `io.CopyN(&buf, r, n)`: either exactly `n` bytes, or the error that ended
      the stream before `n` bytes arrived. */
  function CopyN<E>(s: Stream<E>, n: nat): (r: Result<seq<byte>, E>)
    ensures r.Ok? <==> n <= |s.data|
    ensures r.Ok? ==> |r.value| == n && s.data == r.value + s.data[n..]
    ensures r.Err? ==> r.error == s.end
  {
    if n <= |s.data| then Ok(s.data[..n]) else Err(s.end)
  }

  predicate IsDigit(c: char) {
    '0' <= c <= '9'
  }

  function DigitChar(d: nat): (c: char)
    requires d < 10
    ensures IsDigit(c)
  {
    ('0' as int + d) as char
  }

  function DigitValue(c: char): nat
    requires IsDigit(c)
  {
    c as int - '0' as int
  }

  /** `fmt.Sprintf("%d", n)` for a natural number: the shortest decimal numeral. */
  function Decimal(n: nat): (s: string)
    ensures 0 < |s|
    ensures forall i :: 0 <= i < |s| ==> IsDigit(s[i])
    ensures s[0] == '0' ==> n == 0
  {
    if n < 10 then [DigitChar(n)] else Decimal(n / 10) + [DigitChar(n % 10)]
  }

  /** Reads a decimal numeral back; the reference the rendering is checked against. */
  function ParseDecimal(s: string): nat
    requires forall i :: 0 <= i < |s| ==> IsDigit(s[i])
  {
    if |s| == 0 then 0 else ParseDecimal(s[..|s| - 1]) * 10 + DigitValue(s[|s| - 1])
  }

  /** The decimal rendering loses nothing: reading it back gives the number. */
  lemma {:induction false} DecimalRoundTrip(n: nat)
    ensures ParseDecimal(Decimal(n)) == n
  {
    if n >= 10 {
      var s := Decimal(n);
      assert s[..|s| - 1] == Decimal(n / 10);
      DecimalRoundTrip(n / 10);
    }
  }

  /** Distinct numbers render as distinct numerals. */
  lemma DecimalInjective(m: nat, n: nat)
    requires Decimal(m) == Decimal(n)
    ensures m == n
  {
    DecimalRoundTrip(m);
    DecimalRoundTrip(n);
  }

  /** `%d` for any integer: a minus sign, then the magnitude. */
  function FormatInt(i: int): string
  {
    if i < 0 then "-" + Decimal(-i) else Decimal(i)
  }

  /** `%v` of a byte slice: the decimal values, space separated, in brackets. */
  function FormatBytes(b: seq<byte>): string
  {
    "[" + JoinDecimals(b) + "]"
  }

  /** The numerals of `b`, separated by single spaces. */
  function JoinDecimals(b: seq<byte>): string
    decreases |b|, 1
  {
    if |b| == 0 then "" else Decimal(b[0] as nat) + JoinTail(b)
  }

  /** What follows the first numeral in `JoinDecimals(b)`. */
  function JoinTail(b: seq<byte>): (t: string)
    requires |b| > 0
    ensures |t| > 0 ==> t[0] == ' '
    ensures |t| == 0 <==> |b| == 1
    decreases |b|, 0
  {
    if |b| == 1 then "" else " " + JoinDecimals(b[1..])
  }

  /** The length of the run of digits that starts `s`. */
  function DigitRun(s: string): (n: nat)
    ensures n <= |s|
  {
    if |s| > 0 && IsDigit(s[0]) then 1 + DigitRun(s[1..]) else 0
  }

  /** A numeral followed by nothing or by a space is delimited by its digit run. */
  lemma {:induction false} DigitRunOfNumeral(d: string, x: string)
    requires forall i :: 0 <= i < |d| ==> IsDigit(d[i])
    requires |x| > 0 ==> x[0] == ' '
    ensures DigitRun(d + x) == |d|
  {
    if |d| > 0 {
      assert (d + x)[1..] == d[1..] + x;
      DigitRunOfNumeral(d[1..], x);
    } else {
      assert d + x == x;
    }
  }

  /** Two numerals that each end where a space or the text ends, and that
      start equal texts, are the same numeral followed by the same rest. */
  lemma SameLeadingNumeral(d1: string, x: string, d2: string, y: string)
    requires forall i :: 0 <= i < |d1| ==> IsDigit(d1[i])
    requires forall i :: 0 <= i < |d2| ==> IsDigit(d2[i])
    requires |x| > 0 ==> x[0] == ' '
    requires |y| > 0 ==> y[0] == ' '
    requires d1 + x == d2 + y
    ensures d1 == d2 && x == y
  {
    DigitRunOfNumeral(d1, x);
    DigitRunOfNumeral(d2, y);
    assert d1 == (d1 + x)[..|d1|];
    assert d2 == (d2 + y)[..|d2|];
    assert x == (d1 + x)[|d1|..];
    assert y == (d2 + y)[|d2|..];
  }

  lemma JoinDecimalsEmpty(b: seq<byte>)
    ensures |JoinDecimals(b)| == 0 <==> |b| == 0
  {
  }

  lemma SameHeadSameTail<T>(a: seq<T>, b: seq<T>)
    requires |a| > 0 && |b| > 0 && a[0] == b[0] && a[1..] == b[1..]
    ensures a == b
  {
    assert a == [a[0]] + a[1..];
    assert b == [b[0]] + b[1..];
  }

  /** The `%v` rendering of a byte slice loses nothing: distinct slices give
      distinct texts. */
  lemma {:induction false} JoinDecimalsInjective(a: seq<byte>, b: seq<byte>)
    requires JoinDecimals(a) == JoinDecimals(b)
    ensures a == b
    decreases |a|
  {
    JoinDecimalsEmpty(a);
    JoinDecimalsEmpty(b);
    if |a| > 0 {
      var da, db := Decimal(a[0] as nat), Decimal(b[0] as nat);
      SameLeadingNumeral(da, JoinTail(a), db, JoinTail(b));
      DecimalInjective(a[0] as nat, b[0] as nat);
      if |a| > 1 {
        assert JoinDecimals(a[1..]) == JoinTail(a)[1..];
        assert JoinDecimals(b[1..]) == JoinTail(b)[1..];
        JoinDecimalsInjective(a[1..], b[1..]);
        SameHeadSameTail(a, b);
      }
    }
  }

  /** `FormatBytes` is injective too: the brackets add nothing ambiguous. */
  lemma FormatBytesInjective(a: seq<byte>, b: seq<byte>)
    requires FormatBytes(a) == FormatBytes(b)
    ensures a == b
  {
    var fa, fb := FormatBytes(a), FormatBytes(b);
    assert JoinDecimals(a) == fa[1..|fa| - 1];
    assert JoinDecimals(b) == fb[1..|fb| - 1];
    JoinDecimalsInjective(a, b);
  }

  predicate IsAscii(s: string) {
    forall i :: 0 <= i < |s| ==> s[i] as int < 128
  }

  /** The bytes of an ASCII Go string literal. */
  function Ascii(s: string): (b: seq<byte>)
    requires IsAscii(s)
    ensures |b| == |s|
    ensures forall i :: 0 <= i < |s| ==> b[i] as int == s[i] as int
  {
    seq(|s|, i requires 0 <= i < |s| => s[i] as int as byte)
  }

  /** A byte slice converted to a Go string, one character per byte. */
  function Text(b: seq<byte>): (s: string)
    ensures |s| == |b|
    ensures forall i :: 0 <= i < |b| ==> s[i] as int == b[i] as int
  {
    seq(|b|, i requires 0 <= i < |b| => b[i] as int as char)
  }
}

=== FILE: command_line.dfy ===
/** The ssh invocation that `Dial` spawns, built from an `Endpoint`
    (dial.go `Endpoint.CmdArgs`), and a reader that takes it apart again.
 */
module CommandLine {
  import opened Base

  /** A TCP port: the source's `uint16`. */
  type Port = x: nat | x < 65536

  /** Where and how to reach the remote forwarder. */
  datatype Endpoint = Endpoint(
    host: string,
    user: string,
    port: Port,
    identityFile: string,
    sshCommand: string,
    options: seq<string>)

  /** The program to run, its arguments and its environment. */
  datatype Invocation = Invocation(program: string, args: seq<string>, env: seq<string>)

  /** The fixed options every invocation starts with: the port, no pseudo
      terminal, the identity file, and batch mode. */
  function FixedArgs(e: Endpoint): seq<string>
  {
    ["-p", Decimal(e.port), "-T", "-i", e.identityFile, "-o", "BatchMode=yes"]
  }

  /** `"-o", option` for each configured option, in order. */
  function OptionArgs(opts: seq<string>): (r: seq<string>)
    ensures |r| == 2 * |opts|
    ensures forall i :: 0 <= i < |opts| ==> r[2 * i] == "-o" && r[2 * i + 1] == opts[i]
  {
    if |opts| == 0 then []
    else
      var rest := OptionArgs(opts[1..]);
      var r := ["-o", opts[0]] + rest;
      assert forall i :: 0 <= i < |opts| ==> r[2 * i] == "-o" && r[2 * i + 1] == opts[i] by {
        forall i | 1 <= i < |opts|
          ensures r[2 * i] == "-o" && r[2 * i + 1] == opts[i]
        {
          assert opts[i] == opts[1..][i - 1];
          assert r[2 * i] == rest[2 * (i - 1)];
          assert r[2 * i + 1] == rest[2 * (i - 1) + 1];
        }
      }
      r
  }

  function Target(e: Endpoint): string
  {
    e.user + "@" + e.host
  }

  /** `Endpoint.CmdArgs`: the program is the configured ssh command or `ssh`;
      the arguments are the fixed options, each extra option behind its own
      `-o`, and the `user@host` target last; the environment is empty. */
  function CmdArgs(e: Endpoint): (c: Invocation)
    ensures c.program == (if e.sshCommand != "" then e.sshCommand else "ssh")
    ensures |c.args| == 2 * |e.options| + 8
    ensures c.args[0] == "-p" && c.args[1] == Decimal(e.port) && c.args[2] == "-T"
    ensures c.args[3] == "-i" && c.args[4] == e.identityFile
    ensures c.args[5] == "-o" && c.args[6] == "BatchMode=yes"
    ensures forall i :: 0 <= i < |e.options| ==>
      c.args[7 + 2 * i] == "-o" && c.args[8 + 2 * i] == e.options[i]
    ensures c.args[|c.args| - 1] == e.user + "@" + e.host
    ensures c.env == []
  {
    var program := if e.sshCommand != "" then e.sshCommand else "ssh";
    var fixed, opts := FixedArgs(e), OptionArgs(e.options);
    var args := fixed + opts + [Target(e)];
    Concat3(fixed, opts, Target(e));
    Invocation(program, args, [])
  }

  /** Where each part of `a + b + [x]` lands. */
  lemma Concat3<T>(a: seq<T>, b: seq<T>, x: T)
    ensures |a + b + [x]| == |a| + |b| + 1
    ensures forall i :: 0 <= i < |a| ==> (a + b + [x])[i] == a[i]
    ensures forall j :: 0 <= j < |b| ==> (a + b + [x])[|a| + j] == b[j]
    ensures (a + b + [x])[|a| + |b|] == x
  {
  }

  /** What a reader of the argument vector can recover from it. */
  datatype Parsed = Parsed(port: nat, identityFile: string, options: seq<string>, target: string)

  /** Reads `-o option` pairs up to the end. */
  function ParseOptions(rest: seq<string>): Option<seq<string>>
  {
    if |rest| == 0 then Some([])
    else if |rest| >= 2 && rest[0] == "-o" then
      match ParseOptions(rest[2..])
      case Some(opts) => Some([rest[1]] + opts)
      case None => None
    else None
  }

  predicate AllDigits(s: string) {
    0 < |s| && forall i :: 0 <= i < |s| ==> IsDigit(s[i])
  }

  /** Reads an argument vector of the shape `CmdArgs` produces. */
  function ParseArgs(args: seq<string>): Option<Parsed>
  {
    if |args| >= 8 && args[..7] == ["-p", args[1], "-T", "-i", args[4], "-o", "BatchMode=yes"]
       && AllDigits(args[1])
    then
      match ParseOptions(args[7..|args| - 1])
      case Some(opts) => Some(Parsed(ParseDecimal(args[1]), args[4], opts, args[|args| - 1]))
      case None => None
    else None
  }

  lemma {:induction false} ParseOptionArgs(opts: seq<string>)
    ensures ParseOptions(OptionArgs(opts)) == Some(opts)
  {
    if |opts| > 0 {
      var r := OptionArgs(opts);
      assert r[2..] == OptionArgs(opts[1..]);
      ParseOptionArgs(opts[1..]);
      assert [opts[0]] + opts[1..] == opts;
    }
  }

  /** Nothing configured is lost: the port, identity file, every option in
      order and the target can all be read back from the argument vector. */
  lemma CmdArgsRoundTrip(e: Endpoint)
    ensures ParseArgs(CmdArgs(e).args) == Some(Parsed(e.port, e.identityFile, e.options, Target(e)))
  {
    var fixed, opts := FixedArgs(e), OptionArgs(e.options);
    var args := CmdArgs(e).args;
    assert args == fixed + opts + [Target(e)];
    assert args[..7] == fixed;
    assert args[7..|args| - 1] == opts;
    assert AllDigits(args[1]);
    ParseOptionArgs(e.options);
    DecimalRoundTrip(e.port);
  }

  /** The command line is a function of the endpoint alone: endpoints that
      yield the same invocation agree on everything it carries. */
  lemma CmdArgsInjective(e1: Endpoint, e2: Endpoint)
    requires CmdArgs(e1) == CmdArgs(e2)
    ensures e1.port == e2.port && e1.identityFile == e2.identityFile
    ensures e1.options == e2.options && Target(e1) == Target(e2)
  {
    CmdArgsRoundTrip(e1);
    CmdArgsRoundTrip(e2);
  }
}

=== FILE: dial.dfy ===
/** The dialing side (dial.go `Dial`): the handshake goroutine's decision over
    the first frame it reads, and the outcome of racing that goroutine against
    the caller's context.
 */
module Dialer {
  import opened Base
  import opened Framing
  import opened Errors
  import opened CommandLine

  /** The stream's first frame is exactly `msg`. */
  predicate Leads(data: seq<byte>, msg: seq<byte>) {
    BannerMessageLen <= |data| && data[..BannerMessageLen] == msg
  }

  /** What the handshake goroutine leaves behind: the bytes it tried to write
      to ssh, and the one value it sends before closing its channel (`None`:
      it closed the channel without sending). */
  datatype HandshakeResult = HandshakeResult(sent: seq<byte>, err: Option<Error>)

  /** The goroutine in `Dial`. It reads one frame from ssh's output `peer`;
      the ready banner lets it write the begin message (whose write fails with
      `beginWrite`, if that is set), the forwarder's error banner and every
      other frame end the handshake with a `ProtocolError`, and I/O failures
      become an `SSHError` naming the activity. */
  function Handshake(peer: Stream<RwcError>, beginWrite: Option<RwcError>): (r: HandshakeResult)
    ensures r.err.None? <==> Leads(peer.data, BannerMsg) && beginWrite.None?
    ensures r.sent == (if Leads(peer.data, BannerMsg) then BeginMsg else [])
    ensures |peer.data| < BannerMessageLen ==> r.err == Some(SSHError(peer.end, "read banner"))
    ensures Leads(peer.data, ProxyErrorMsg) ==> r.err == Some(ProtocolError(ProxyErrorReported))
    ensures BannerMessageLen <= |peer.data| && !Leads(peer.data, BannerMsg) && !Leads(peer.data, ProxyErrorMsg) ==>
      r.err == Some(ProtocolError(UnknownBanner(peer.data[..BannerMessageLen])))
    ensures Leads(peer.data, BannerMsg) && beginWrite.Some? ==>
      r.err == Some(SSHError(beginWrite.value, "send begin message"))
  {
    MessagesDistinct();
    match CopyN(peer, |BannerMsg|)
    case Err(e) => HandshakeResult([], Some(SSHError(e, "read banner")))
    case Ok(resp) =>
      if resp == BannerMsg then
        match beginWrite
        case Some(e) => HandshakeResult(BeginMsg, Some(SSHError(e, "send begin message")))
        case None => HandshakeResult(BeginMsg, None)
      else if resp == ProxyErrorMsg then
        HandshakeResult([], Some(ProtocolError(ProxyErrorReported)))
      else
        HandshakeResult([], Some(ProtocolError(UnknownBanner(resp))))
  }

  /** Which arm of the `select` in `Dial` fires. */
  datatype Race = ContextDoneFirst(cause: ContextCause) | HandshakeFirst

  /** `*SSHConn`: the live ssh command behind the connection. */
  datatype SSHConn = SSHConn(command: Invocation)

  /** Scripted results of everything `Dial` waits on: creating and starting the
      ssh command, ssh's output, the write of the begin message, and the race. */
  datatype DialScript = DialScript(
    create: Option<Error>,
    start: Option<Error>,
    peer: Stream<RwcError>,
    beginWrite: Option<RwcError>,
    race: Race)

  /** What `Dial` returns, and whether it cancelled the command's context. */
  datatype DialOutcome = DialOutcome(result: Result<SSHConn, Error>, commandCanceled: bool)

  predicate Spawned(s: DialScript) {
    s.create.None? && s.start.None?
  }

  /** `Dial`. Failing to create or start the command returns that error as it
      is. Once the command runs, a context that is done first cancels the
      command and returns the context's own error; a handshake that finishes
      first with an error cancels the command and returns that error
      unchanged; a handshake that succeeds returns a connection wrapping the
      command built from the endpoint. */
  function Dial(endpoint: Endpoint, s: DialScript): (r: DialOutcome)
    ensures r.result.Ok? <==>
      Spawned(s) && s.race == HandshakeFirst && Leads(s.peer.data, BannerMsg) && s.beginWrite.None?
    ensures r.result.Ok? ==> r.result.value.command == CmdArgs(endpoint)
    ensures r.commandCanceled <==> Spawned(s) && r.result.Err?
    ensures s.create.Some? ==> r.result == Err(s.create.value)
    ensures s.create.None? && s.start.Some? ==> r.result == Err(s.start.value)
    ensures Spawned(s) && s.race.ContextDoneFirst? ==> r.result == Err(ContextError(s.race.cause))
    ensures Spawned(s) && s.race == HandshakeFirst && Handshake(s.peer, s.beginWrite).err.Some? ==>
      r.result == Err(Handshake(s.peer, s.beginWrite).err.value)
  {
    var command := CmdArgs(endpoint);
    if s.create.Some? then DialOutcome(Err(s.create.value), false)
    else if s.start.Some? then DialOutcome(Err(s.start.value), false)
    else
      match s.race
      case ContextDoneFirst(cause) =>
        // the goroutine's result is drained and discarded
        DialOutcome(Err(ContextError(cause)), true)
      case HandshakeFirst =>
        match Handshake(s.peer, s.beginWrite).err
        case Some(e) => DialOutcome(Err(e), true)
        case None => DialOutcome(Ok(SSHConn(command)), false)
  }

  /** Once the command is running, `Dial` fails only with the context's error,
      a `ProtocolError` or an `SSHError`; the context's error only when the
      context won the race. */
  lemma DialErrorKinds(endpoint: Endpoint, s: DialScript)
    requires Spawned(s)
    requires Dial(endpoint, s).result.Err?
    ensures
      var e := Dial(endpoint, s).result.error;
      e.ContextError? || e.ProtocolError? || e.SSHError?
    ensures Dial(endpoint, s).result.error.ContextError? <==> s.race.ContextDoneFirst?
  {
  }

  /** If ssh exits cleanly before sending a banner, the error reads as an
      unexpected clean exit rather than a generic I/O failure. */
  lemma CleanExitBeforeBanner(endpoint: Endpoint, beginWrite: Option<RwcError>)
    ensures
      var s := DialScript(None, None, Stream([], RwcEOF), beginWrite, HandshakeFirst);
      && Dial(endpoint, s).result == Err(SSHError(RwcEOF, "read banner"))
      && SSHErrorText(RwcEOF) == "ssh exited unexpectedly with exit status 0"
  {
  }
}

=== FILE: errors.dfy ===
/** The package's error taxonomy: errors of the spawned ssh process, protocol
    desynchronisation, and I/O failures of the accepting side's streams, plus
    the message `SSHError.Error` composes (dial.go).
 */
module Errors {
  import opened Base

  /** How the ssh process ended, as `syscall.WaitStatus` reports it. */
  datatype WaitStatus = Exited(code: int) | Signaled(signal: string)

  /** Errors the process-backed channel reports. It reports `io.EOF` when ssh
      exits with status 0 and an `*exec.ExitError` carrying the captured stderr
      when it exits otherwise. */
  datatype RwcError =
    | RwcEOF
    | RwcExit(status: WaitStatus, stderr: seq<byte>)
    | RwcFault(msg: string)

  /** The cause carried by a `ProtocolError`. */
  datatype ProtocolCause =
    | ProxyErrorReported
    | UnknownBanner(received: seq<byte>)
    | MissingBegin(received: seq<byte>)

  datatype ContextCause = Canceled | DeadlineExceeded

  /** Every error the package returns or passes on. `Fault` stands for an
      operating-system or library error the package does not inspect. */
  datatype Error =
    | EOF
    | Fault(msg: string)
    | SSHError(cause: RwcError, activity: string)
    | ProtocolError(what: ProtocolCause)
    | IOError(inner: Error)
    | AbnormalTermination
    | ContextError(ctx: ContextCause)

  /** `ProtocolError.Error()`: its description. */
  function ProtocolText(w: ProtocolCause): string
  {
    match w
    case ProxyErrorReported => "proxy error, check remote configuration"
    case UnknownBanner(b) => "unknown banner message: " + FormatBytes(b)
    case MissingBegin(b) => "unexpected begin message: " + FormatBytes(b)
  }

  /** A `ProtocolError`'s text names its cause: the two fixed texts differ
      from each other, and a banner or begin frame can be read back from the
      text it appears in. */
  lemma ProtocolTextInjective(v: ProtocolCause, w: ProtocolCause)
    requires ProtocolText(v) == ProtocolText(w)
    ensures v == w
  {
    var tv, tw := ProtocolText(v), ProtocolText(w);
    assert tv[0] == 'p' <==> v.ProxyErrorReported?;
    assert tw[0] == 'p' <==> w.ProxyErrorReported?;
    assert tv[2] == 'k' <==> v.UnknownBanner?;
    assert tw[2] == 'k' <==> w.UnknownBanner?;
    if v.UnknownBanner? {
      var n := |"unknown banner message: "|;
      assert FormatBytes(v.received) == tv[n..];
      assert FormatBytes(w.received) == tw[n..];
      FormatBytesInjective(v.received, w.received);
    } else if v.MissingBegin? {
      var n := |"unexpected begin message: "|;
      assert FormatBytes(v.received) == tv[n..];
      assert FormatBytes(w.received) == tw[n..];
      FormatBytesInjective(v.received, w.received);
    }
  }

  const Newline: byte := 10

  /** `bytes.Index(s, []byte("\n"))`: the first index of `b`, or -1. */
  function IndexByte(s: seq<byte>, b: byte): (r: int)
    ensures -1 <= r < |s|
    ensures r == -1 <==> b !in s
    ensures 0 <= r ==> s[r] == b
    ensures forall j :: 0 <= j < r ==> s[j] != b
  {
    if |s| == 0 then -1
    else if s[0] == b then 0
    else
      var k := IndexByte(s[1..], b);
      if k < 0 then -1 else k + 1
  }

  /** ASCII white space as `bytes.TrimSpace` understands it. */
  predicate IsSpace(b: byte) {
    b == 9 || b == 10 || b == 11 || b == 12 || b == 13 || b == 32
  }

  /** Leading white space removed: a suffix of `s` that starts with a non-space. */
  function TrimLeft(s: seq<byte>): (t: seq<byte>)
    ensures |t| <= |s| && t == s[|s| - |t|..]
    ensures forall i :: 0 <= i < |s| - |t| ==> IsSpace(s[i])
    ensures |t| > 0 ==> !IsSpace(t[0])
  {
    if |s| > 0 && IsSpace(s[0]) then TrimLeft(s[1..]) else s
  }

  /** Trailing white space removed: a prefix of `s` that ends in a non-space. */
  function TrimRight(s: seq<byte>): (t: seq<byte>)
    ensures |t| <= |s| && t == s[..|t|]
    ensures forall i :: |t| <= i < |s| ==> IsSpace(s[i])
    ensures |t| > 0 ==> !IsSpace(t[|t| - 1])
  {
    if |s| > 0 && IsSpace(s[|s| - 1]) then TrimRight(s[..|s| - 1]) else s
  }

  /** `t` is the infix of `s` that starts at `a`, and only white space
      surrounds it. */
  predicate SpacedInfix(s: seq<byte>, a: nat, t: seq<byte>) {
    && a + |t| <= |s| && t == s[a..a + |t|]
    && (forall i :: 0 <= i < a ==> IsSpace(s[i]))
    && (forall i :: a + |t| <= i < |s| ==> IsSpace(s[i]))
  }

  /** Trimming the front of `s` to `l`, then the back of `l` to `t`, leaves the
      infix of `s` between two runs of white space. */
  lemma InfixBetweenSpaces(s: seq<byte>, l: seq<byte>, t: seq<byte>)
    requires |l| <= |s| && l == s[|s| - |l|..]
    requires forall i :: 0 <= i < |s| - |l| ==> IsSpace(s[i])
    requires |l| > 0 ==> !IsSpace(l[0])
    requires |t| <= |l| && t == l[..|t|]
    requires forall i :: |t| <= i < |l| ==> IsSpace(l[i])
    ensures SpacedInfix(s, |s| - |l|, t)
    ensures |t| > 0 ==> !IsSpace(t[0])
    ensures (forall i :: 0 <= i < |s| ==> IsSpace(s[i])) <==> |t| == 0
  {
    var a := |s| - |l|;
    forall i | a + |t| <= i < |s|
      ensures IsSpace(s[i])
    {
      assert s[i] == l[i - a];
    }
    if |t| > 0 {
      assert t[0] == l[0] == s[a];
    }
  }

  /** `bytes.TrimSpace`: the longest infix between leading and trailing white space. */
  function TrimSpace(s: seq<byte>): (t: seq<byte>)
    ensures |t| <= |s|
    ensures SpacedInfix(s, |s| - |TrimLeft(s)|, t)
    ensures |t| > 0 ==> !IsSpace(t[0]) && !IsSpace(t[|t| - 1])
    ensures (forall i :: 0 <= i < |s| ==> IsSpace(s[i])) <==> |t| == 0
  {
    var l := TrimLeft(s);
    var t := TrimRight(l);
    InfixBetweenSpaces(s, l, t);
    t
  }

  /** How the ssh diagnostic output reads, defined without `bytes.Index`:
      none at all; a single line ended by its only newline; anything else. */
  datatype StderrShape = NoOutput | SingleLine | Block

  function ShapeOf(stderr: seq<byte>): StderrShape
  {
    if |stderr| == 0 then NoOutput
    else if stderr[|stderr| - 1] == Newline && Newline !in stderr[..|stderr| - 1] then SingleLine
    else Block
  }

  /** The source's one-line test, "the first newline is the last byte", is the
      independent single-line shape, except that it also holds for empty output
      (-1 == len-1); the empty case is decided before the flag is consulted. */
  lemma OnelineFlagMeansSingleLine(stderr: seq<byte>)
    ensures (IndexByte(stderr, Newline) == |stderr| - 1) <==> (ShapeOf(stderr) != Block)
    ensures |stderr| == 0 ==> IndexByte(stderr, Newline) == |stderr| - 1
  {
  }

  /** The parenthesised exit description (`wsmsg`). */
  function WaitStatusText(ws: WaitStatus): string
  {
    match ws
    case Exited(code) => "(exit status " + FormatInt(code) + ")"
    case Signaled(sig) => "(" + sig + ")"
  }

  /** `(*SSHError).Error()`: a message chosen by the kind of channel error and,
      for an exit error, by how its diagnostic output reads. The activity is
      not part of the message. */
  function SSHErrorText(e: RwcError): (r: string)
    ensures e == RwcEOF ==> r == "ssh exited unexpectedly with exit status 0"
    ensures e.RwcFault? ==> r == "ssh: " + e.msg
    ensures e.RwcExit? && ShapeOf(e.stderr) == NoOutput ==>
      r == "ssh terminated without stderr output " + WaitStatusText(e.status)
    ensures e.RwcExit? && ShapeOf(e.stderr) == SingleLine ==>
      r == "ssh: '" + Text(TrimSpace(e.stderr)) + "' " + WaitStatusText(e.status)
    ensures e.RwcExit? && ShapeOf(e.stderr) == Block ==>
      r == "ssh " + WaitStatusText(e.status) + "\n" + Text(TrimSpace(e.stderr))
  {
    match e
    case RwcEOF => "ssh exited unexpectedly with exit status 0"
    case RwcFault(msg) => "ssh: " + msg
    case RwcExit(ws, stderr) =>
      var wsmsg := WaitStatusText(ws);
      var haveSSHMessage := |stderr| > 0;
      var sshOnelineStderr := IndexByte(stderr, Newline) == |stderr| - 1;
      var trimmed := Text(TrimSpace(stderr));
      OnelineFlagMeansSingleLine(stderr);
      if haveSSHMessage then
        if sshOnelineStderr then "ssh: '" + trimmed + "' " + wsmsg
        else "ssh " + wsmsg + "\n" + trimmed
      else "ssh terminated without stderr output " + wsmsg
  }

  /** Empty diagnostic output is reported as such even though the one-line flag
      is set for it. */
  lemma EmptyStderrIsReportedAsNoOutput(ws: WaitStatus)
    ensures IndexByte([], Newline) == -1
    ensures SSHErrorText(RwcExit(ws, [])) == "ssh terminated without stderr output " + WaitStatusText(ws)
  {
  }

  /** A diagnostic that is one line quoted inline comes out without its newline. */
  lemma SingleLineIsQuotedWithoutNewline(ws: WaitStatus, line: seq<byte>)
    requires Newline !in line
    requires |line| > 0 && !IsSpace(line[0]) && !IsSpace(line[|line| - 1])
    ensures SSHErrorText(RwcExit(ws, line + [Newline])) == "ssh: '" + Text(line) + "' " + WaitStatusText(ws)
  {
  }
}

=== FILE: forwarder.dfy ===
/** The remote forwarder (serve.go `Proxy`): connect to the local socket, make
    stdin and stdout non-blocking, hand both to the accepting process, then wait
    for the one status byte that says how the tunnel ended.
 */
module Forwarder {
  import opened Base
  import opened Framing
  import opened Errors

  /** The forwarder's observable steps; `Rank` gives the order it takes them in. */
  datatype Step =
    | DialServer
    | WriteStdout(data: seq<byte>)
    | SyncStdout
    | SetNonblockStdin
    | SetNonblockStdout
    | PutFds
    | ReadStatus
    | CloseConn

  /** The result of the single one-byte `conn.Read`: the byte, if one was
      read (`n == 1`), and the error returned with it. */
  datatype StatusRead = StatusRead(got: Option<byte>, err: Option<Error>)

  /** Scripted results of each step that can fail. */
  datatype ProxyScript = ProxyScript(
    dial: Option<Error>,
    nonblockStdin: Option<Error>,
    nonblockStdout: Option<Error>,
    put: Option<Error>,
    status: StatusRead)

  /** What `Proxy` returns (`None` for `nil`) and the steps it took. */
  datatype ProxyOutcome = ProxyOutcome(err: Option<Error>, steps: seq<Step>)

  /** `trySendProxyError`: write the error frame to stdout and sync. A failed
      write is only logged, so the steps are the same either way. */
  function TrySendProxyError(): seq<Step>
  {
    [WriteStdout(ProxyErrorMsg), SyncStdout]
  }

  /** Everything the forwarder writes to its stdout, in order. */
  function StdoutBytes(steps: seq<Step>): seq<byte>
  {
    if |steps| == 0 then []
    else (if steps[0].WriteStdout? then steps[0].data else []) + StdoutBytes(steps[1..])
  }

  /** The decision on the final read (serve.go:92-104), as written. Any error
      but `io.EOF` is returned as it is, and so is a `nil` error: a read that
      returns a byte without an error is success whatever the byte. Only at
      `io.EOF` is the byte inspected. */
  function FinalStatus(r: StatusRead): (e: Option<Error>)
    ensures r.err != Some(EOF) ==> e == r.err
    ensures r.err == Some(EOF) ==> (e.None? <==> r.got == Some(0))
    ensures r.err == Some(EOF) && r.got != Some(0) ==> e == Some(AbnormalTermination)
  {
    if r.err != Some(EOF) then r.err
    else if r.got != Some(0) then Some(AbnormalTermination)
    else None
  }

  /** The final status decision as its log messages describe it: the
      run succeeded exactly when a single zero byte arrived and the read ended
      cleanly, with a byte and no error or with a byte and `io.EOF`. */
  function FinalStatusIntended(r: StatusRead): (e: Option<Error>)
    ensures e.None? <==> r.got == Some(0) && (r.err.None? || r.err == Some(EOF))
    ensures r.err.Some? && r.err != Some(EOF) ==> e == r.err
  {
    if r.err.Some? && r.err != Some(EOF) then r.err
    else if r.got != Some(0) then Some(AbnormalTermination)
    else None
  }

  /** As written, a non-zero status byte read without an error counts as a
      normal end of the tunnel. */
  lemma NonzeroStatusIsSuccess()
    ensures FinalStatus(StatusRead(Some(1), None)) == None
    ensures FinalStatusIntended(StatusRead(Some(1), None)) == Some(AbnormalTermination)
  {
  }

  /** The intended decision never accepts what the written one rejects, and
      the two agree whenever the read ended at `io.EOF`. */
  lemma IntendedIsStricter(r: StatusRead)
    ensures FinalStatusIntended(r).None? ==> FinalStatus(r).None?
    ensures r.err == Some(EOF) ==> FinalStatus(r) == FinalStatusIntended(r)
  {
  }

  /** The position of each kind of step in the forwarder's fixed order. */
  function Rank(step: Step): nat
  {
    match step
    case DialServer => 0
    case SetNonblockStdin => 1
    case SetNonblockStdout => 2
    case PutFds => 3
    case WriteStdout(_) => 4
    case SyncStdout => 5
    case ReadStatus => 6
    case CloseConn => 7
  }

  /** Each step comes strictly later in the fixed order than the one before
      it, so no kind of step is taken twice. */
  predicate InOrder(steps: seq<Step>) {
    forall i :: 0 < i < |steps| ==> Rank(steps[i - 1]) < Rank(steps[i])
  }

  /** Steps in order are ordered pairwise, not only neighbour by neighbour. */
  lemma {:induction false} InOrderPairwise(steps: seq<Step>, i: nat, j: nat)
    requires InOrder(steps)
    requires i < j < |steps|
    ensures Rank(steps[i]) < Rank(steps[j])
    decreases j - i
  {
    if i + 1 < j {
      InOrderPairwise(steps, i, j - 1);
    }
  }

  /** Which of the fixed steps a trace contains, as flags in the fixed order:
      the two non-blocking calls, the hand-over, the error frame's sync, the
      status read and the close. */
  predicate Took(t: seq<Step>, nbIn: bool, nbOut: bool, put: bool, sync: bool, read: bool, close: bool) {
    && |t| > 0 && t[0] == DialServer && InOrder(t)
    && ((SetNonblockStdin in t) <==> nbIn)
    && ((SetNonblockStdout in t) <==> nbOut)
    && ((PutFds in t) <==> put)
    && ((SyncStdout in t) <==> sync)
    && ((ReadStatus in t) <==> read)
    && ((CloseConn in t) <==> close)
    && (close ==> t[|t| - 1] == CloseConn)
  }

  lemma DialFailedTrace()
    ensures Took([DialServer] + TrySendProxyError(), false, false, false, true, false, false)
  {
    assert [DialServer] + TrySendProxyError() == [DialServer, WriteStdout(ProxyErrorMsg), SyncStdout];
  }

  lemma NonblockStdinFailedTrace()
    ensures Took([DialServer, SetNonblockStdin, CloseConn], true, false, false, false, false, true)
  {
  }

  lemma NonblockStdoutFailedTrace()
    ensures Took([DialServer, SetNonblockStdin, SetNonblockStdout, CloseConn], true, true, false, false, false, true)
  {
  }

  lemma PutFailedTrace()
    ensures Took([DialServer, SetNonblockStdin, SetNonblockStdout, PutFds] + TrySendProxyError() + [CloseConn],
      true, true, true, true, false, true)
  {
    assert [DialServer, SetNonblockStdin, SetNonblockStdout, PutFds] + TrySendProxyError() + [CloseConn]
      == [DialServer, SetNonblockStdin, SetNonblockStdout, PutFds, WriteStdout(ProxyErrorMsg), SyncStdout, CloseConn];
  }

  lemma SetUpTrace()
    ensures Took([DialServer, SetNonblockStdin, SetNonblockStdout, PutFds, ReadStatus, CloseConn],
      true, true, true, false, true, true)
  {
  }

  /** `Proxy`. A failure to connect or to hand over the descriptors writes the
      error frame to stdout before returning the error; a failure to make a
      stream non-blocking returns without it. Every exit after a successful
      connect closes the connection last. */
  function Proxy(s: ProxyScript): (r: ProxyOutcome)
    ensures |r.steps| > 0 && r.steps[0] == DialServer
    ensures (CloseConn in r.steps) <==> s.dial.None?
    ensures s.dial.None? ==> r.steps[|r.steps| - 1] == CloseConn
    ensures InOrder(r.steps)
    ensures (SetNonblockStdin in r.steps) <==> s.dial.None?
    ensures (SetNonblockStdout in r.steps) <==> s.dial.None? && s.nonblockStdin.None?
    ensures (PutFds in r.steps) <==> s.dial.None? && s.nonblockStdin.None? && s.nonblockStdout.None?
    ensures (SyncStdout in r.steps) <==>
      s.dial.Some? || (s.nonblockStdin.None? && s.nonblockStdout.None? && s.put.Some?)
    ensures (ReadStatus in r.steps) <==>
      s.dial.None? && s.nonblockStdin.None? && s.nonblockStdout.None? && s.put.None?
    ensures s.dial.Some? ==> r.err == s.dial
    ensures s.dial.None? && s.nonblockStdin.Some? ==> r.err == s.nonblockStdin
    ensures s.dial.None? && s.nonblockStdin.None? && s.nonblockStdout.Some? ==> r.err == s.nonblockStdout
    ensures s.dial.None? && s.nonblockStdin.None? && s.nonblockStdout.None? && s.put.Some? ==> r.err == s.put
    ensures s.dial.None? && s.nonblockStdin.None? && s.nonblockStdout.None? && s.put.None? ==>
      r.err == FinalStatus(s.status)
    ensures r.err.None? <==>
      s.dial.None? && s.nonblockStdin.None? && s.nonblockStdout.None? && s.put.None?
      && FinalStatus(s.status).None?
  {
    if s.dial.Some? then
      DialFailedTrace();
      ProxyOutcome(s.dial, [DialServer] + TrySendProxyError())
    else if s.nonblockStdin.Some? then
      NonblockStdinFailedTrace();
      ProxyOutcome(s.nonblockStdin, [DialServer, SetNonblockStdin, CloseConn])
    else if s.nonblockStdout.Some? then
      NonblockStdoutFailedTrace();
      ProxyOutcome(s.nonblockStdout, [DialServer, SetNonblockStdin, SetNonblockStdout, CloseConn])
    else if s.put.Some? then
      PutFailedTrace();
      ProxyOutcome(s.put, [DialServer, SetNonblockStdin, SetNonblockStdout, PutFds] + TrySendProxyError() + [CloseConn])
    else
      SetUpTrace();
      ProxyOutcome(FinalStatus(s.status),
        [DialServer, SetNonblockStdin, SetNonblockStdout, PutFds, ReadStatus, CloseConn])
  }

  lemma {:induction false} StdoutBytesAppend(a: seq<Step>, b: seq<Step>)
    ensures StdoutBytes(a + b) == StdoutBytes(a) + StdoutBytes(b)
  {
    if |a| > 0 {
      assert (a + b)[1..] == a[1..] + b;
      StdoutBytesAppend(a[1..], b);
    } else {
      assert a + b == b;
    }
  }

  lemma {:induction false} StdoutBytesWithoutWrites(steps: seq<Step>)
    requires forall i :: 0 <= i < |steps| ==> !steps[i].WriteStdout?
    ensures StdoutBytes(steps) == []
  {
    if |steps| > 0 {
      StdoutBytesWithoutWrites(steps[1..]);
    }
  }

  lemma SendProxyErrorBytes()
    ensures StdoutBytes(TrySendProxyError()) == ProxyErrorMsg
  {
    var send := TrySendProxyError();
    assert send[1..][1..] == [];
  }

  lemma DialFailedStdout(s: ProxyScript)
    requires s.dial.Some?
    ensures StdoutBytes(Proxy(s).steps) == ProxyErrorMsg
  {
    SendProxyErrorBytes();
    StdoutBytesAppend([DialServer], TrySendProxyError());
    StdoutBytesWithoutWrites([DialServer]);
  }

  lemma PutFailedStdout(s: ProxyScript)
    requires s.dial.None? && s.nonblockStdin.None? && s.nonblockStdout.None? && s.put.Some?
    ensures StdoutBytes(Proxy(s).steps) == ProxyErrorMsg
  {
    var pre := [DialServer, SetNonblockStdin, SetNonblockStdout, PutFds];
    var send := TrySendProxyError();
    SendProxyErrorBytes();
    StdoutBytesAppend(pre + send, [CloseConn]);
    StdoutBytesAppend(pre, send);
    StdoutBytesWithoutWrites(pre);
    StdoutBytesWithoutWrites([CloseConn]);
  }

  lemma QuietStdout(s: ProxyScript)
    requires s.dial.None? && (s.nonblockStdin.Some? || s.nonblockStdout.Some? || s.put.None?)
    ensures StdoutBytes(Proxy(s).steps) == []
  {
    StdoutBytesWithoutWrites(Proxy(s).steps);
  }

  /** The only bytes the forwarder ever puts on its stdout are one error
      frame, written when connecting or handing over the descriptors fails;
      a failure to make a stream non-blocking writes nothing. */
  lemma ProxyStdout(s: ProxyScript)
    ensures StdoutBytes(Proxy(s).steps) ==
      (if s.dial.Some? || (s.nonblockStdin.None? && s.nonblockStdout.None? && s.put.Some?)
       then ProxyErrorMsg else [])
  {
    if s.dial.Some? {
      DialFailedStdout(s);
    } else if s.nonblockStdin.None? && s.nonblockStdout.None? && s.put.Some? {
      PutFailedStdout(s);
    } else {
      QuietStdout(s);
    }
  }

  /** The exit-status contract of the host process: status 0 exactly when
      `Proxy` returns `nil`. */
  function ExitCode(r: ProxyOutcome): (code: int)
    ensures code == 0 <==> r.err.None?
  {
    if r.err.None? then 0 else 1
  }
}

=== FILE: framing.dfy ===
/** The fixed-length sentinel frames of the handshake (dial.go `mustMessage` and
    the three messages built from it).
 */
module Framing {
  import opened Base

  /** Every handshake frame is exactly this long (`bannerMessageLen`). */
  const BannerMessageLen: nat := 31

  /** The two panics `mustMessage` can raise. The third check in the source,
      that `WriteString` wrote every byte, cannot fail for a `bytes.Buffer`. */
  datatype Panic = MessageTooLong | DuplicateMessage

  /** The package-level `messages` map, keyed by message text. */
  type Registry = map<seq<byte>, seq<byte>>

  /** `messages` is created empty and no statement ever stores into it. */
  const Messages: Registry := map[]

  /** A frame carrying `s`: `s` itself, then zero bytes up to the frame length. */
  ghost predicate IsFrameOf(f: seq<byte>, s: seq<byte>) {
    && |s| <= |f| == BannerMessageLen
    && f[..|s|] == s
    && forall i :: |s| <= i < |f| ==> f[i] == 0
  }

  function Pad(s: seq<byte>): (f: seq<byte>)
    requires |s| <= BannerMessageLen
    ensures IsFrameOf(f, s)
  {
    s + seq(BannerMessageLen - |s|, _ => 0)
  }

  /** `mustMessage(str)` against the registry it consults. A message of exactly
      `BannerMessageLen` bytes is still accepted: only a longer one panics. */
  function MustMessage(registry: Registry, s: seq<byte>): (r: Result<seq<byte>, Panic>)
    ensures r.Ok? <==> |s| <= BannerMessageLen && s !in registry
    ensures |s| > BannerMessageLen ==> r == Err(MessageTooLong)
    ensures r.Ok? ==> IsFrameOf(r.value, s)
  {
    if |s| > BannerMessageLen then Err(MessageTooLong)
    else if s in registry then Err(DuplicateMessage)
    else Ok(Pad(s))
  }

  const BannerText: string := "SSHCON_HELO"
  const ProxyErrorText: string := "SSHCON_PROXY_ERROR"
  const BeginText: string := "SSHCON_BEGIN"

  /** `banner_msg`: sent by the accepting side once it owns the streams. */
  const BannerMsg: seq<byte> := MustMessage(Messages, Ascii(BannerText)).value

  /** `proxy_error_msg`: sent by the forwarder in place of the banner when setup fails. */
  const ProxyErrorMsg: seq<byte> := MustMessage(Messages, Ascii(ProxyErrorText)).value

  /** `begin_msg`: sent by the dialing side once it has seen the banner. */
  const BeginMsg: seq<byte> := MustMessage(Messages, Ascii(BeginText)).value

  /** Recovers the text of a frame by dropping its zero padding. */
  function Unpad(f: seq<byte>): (s: seq<byte>)
    ensures |s| <= |f| && s == f[..|s|]
  {
    if |f| > 0 && f[|f| - 1] == 0 then Unpad(f[..|f| - 1]) else f
  }

  predicate NoTrailingZero(s: seq<byte>) {
    |s| == 0 || s[|s| - 1] != 0
  }

  /** Padding is undone by `Unpad` for every text that does not itself end in a
      zero byte, so such texts give distinct frames. */
  lemma {:induction false} UnpadPad(s: seq<byte>, f: seq<byte>)
    requires NoTrailingZero(s)
    requires |s| <= |f| && f[..|s|] == s
    requires forall i :: |s| <= i < |f| ==> f[i] == 0
    ensures Unpad(f) == s
    decreases |f|
  {
    if |f| > |s| {
      assert f[|f| - 1] == 0;
      UnpadPad(s, f[..|f| - 1]);
    } else {
      assert f == s;
    }
  }

  lemma FrameDeterminesText(s: seq<byte>, t: seq<byte>, f: seq<byte>)
    requires NoTrailingZero(s) && NoTrailingZero(t)
    requires IsFrameOf(f, s) && IsFrameOf(f, t)
    ensures s == t
  {
  }

  /** Each of the three messages is a full frame around its text. */
  lemma MessagesAreFrames()
    ensures IsFrameOf(BannerMsg, Ascii(BannerText))
    ensures IsFrameOf(ProxyErrorMsg, Ascii(ProxyErrorText))
    ensures IsFrameOf(BeginMsg, Ascii(BeginText))
    ensures |BannerMsg| == |ProxyErrorMsg| == |BeginMsg| == BannerMessageLen
  {
  }

  /** The three messages are pairwise distinct. This rests on the distinct
      texts and the padding, not on the registry check, which never fires. */
  lemma MessagesDistinct()
    ensures BannerMsg != ProxyErrorMsg
    ensures BannerMsg != BeginMsg
    ensures ProxyErrorMsg != BeginMsg
  {
    assert BannerMsg[7] as int == 'H' as int;
    assert ProxyErrorMsg[7] as int == 'P' as int;
    assert BeginMsg[7] as int == 'B' as int;
  }

  /** As written: the duplicate check can never fire, because the registry it
      consults is always empty; building the same message twice succeeds twice. */
  lemma DuplicateCheckIsDead(s: seq<byte>)
    requires |s| <= BannerMessageLen
    ensures MustMessage(Messages, s) == Ok(Pad(s))
  {
  }

  /** The evidently intended `mustMessage`: it records each message it builds,
      so that the duplicate check has something to compare against. */
  function RegisterMessage(registry: Registry, s: seq<byte>): (r: Result<(seq<byte>, Registry), Panic>)
    ensures r.Ok? <==> MustMessage(registry, s).Ok?
    ensures r.Ok? ==> r.value.0 == MustMessage(registry, s).value
    ensures r.Ok? ==> s in r.value.1 && r.value.1.Keys == registry.Keys + {s}
  {
    match MustMessage(registry, s)
    case Ok(f) => Ok((f, registry[s := f]))
    case Err(p) => Err(p)
  }

  /** With the registry kept up to date, the second use of a text panics. */
  lemma RegisteringTwicePanics(registry: Registry, s: seq<byte>)
    requires RegisterMessage(registry, s).Ok?
    ensures RegisterMessage(RegisterMessage(registry, s).value.1, s) == Err(DuplicateMessage)
  {
  }

  /** Registering the three package messages in source order succeeds and
      yields the same frames as the as-written construction. */
  lemma RegisteredMessagesAgree()
    ensures
      var r1 := RegisterMessage(Messages, Ascii(BannerText));
      && r1.Ok?
      && var r2 := RegisterMessage(r1.value.1, Ascii(ProxyErrorText));
      && r2.Ok?
      && var r3 := RegisterMessage(r2.value.1, Ascii(BeginText));
      && r3.Ok?
      && r1.value.0 == BannerMsg && r2.value.0 == ProxyErrorMsg && r3.value.0 == BeginMsg
  {
  }
}

=== FILE: serve.dfy ===
/** The accepting side (serve.go): the server connection built from the two
    handed-over streams and the control socket, its I/O error classification,
    its close and deadline operations, and `Listener.Accept`.
 */
module Serve {
  import opened Base
  import opened Framing
  import opened Errors

  /** A received stream with the deadlines set on it; times are abstract instants. */
  datatype File = File(name: string, readDeadline: Option<int>, writeDeadline: Option<int>)

  /** `ServeConn`: the forwarder's stdin and stdout, and the status byte to
      send on the control socket at close. */
  datatype ServeConn = ServeConn(stdin: File, stdout: File, proxyFeedback: byte)

  /** The `(n, err)` pair of a read or write. */
  datatype IoResult = IoResult(n: nat, err: Option<Error>)

  /** Observable effects of the accepting side, in order. */
  datatype Effect =
    | CloseUnixConn
    | WriteStdout(data: seq<byte>)
    | ReadStdin(count: nat)
    | CloseStdin
    | CloseStdout
    | WriteControl(data: seq<byte>)
    | CloseControl

  /** `ServeConn.Read` given what `stdin.Read` returned: the count unchanged,
      `nil` and `io.EOF` passed through, every other error wrapped in `IOError`. */
  function Read(raw: IoResult): (r: IoResult)
    ensures r.n == raw.n
    ensures r.err.None? <==> raw.err.None?
    ensures r.err == Some(EOF) <==> raw.err == Some(EOF)
    ensures raw.err.Some? && raw.err != Some(EOF) ==> r.err == Some(IOError(raw.err.value))
  {
    if raw.err.Some? && raw.err != Some(EOF) then IoResult(raw.n, Some(IOError(raw.err.value)))
    else raw
  }

  /** `ServeConn.Write` given what `stdout.Write` returned: the count
      unchanged, every error (`io.EOF` included) wrapped in `IOError`. */
  function Write(raw: IoResult): (r: IoResult)
    ensures r.n == raw.n
    ensures r.err.None? <==> raw.err.None?
    ensures raw.err.Some? ==> r.err == Some(IOError(raw.err.value))
  {
    match raw.err
    case None => raw
    case Some(e) => IoResult(raw.n, Some(IOError(e)))
  }

  /** The stdin stream as `ServeConn.Read` presents it. */
  function ConnStream(stdin: Stream<Error>): Stream<Error>
  {
    Stream(stdin.data, Read(IoResult(0, Some(stdin.end))).err.value)
  }

  /** A caller of `Read` can tell a clean end from a broken transport, and can
      recover the underlying error of the latter. */
  lemma ReadDistinguishesPeerClose(raw: IoResult)
    requires raw.err.Some?
    ensures Read(raw).err.value == EOF <==> raw.err.value == EOF
    ensures Read(raw).err.value.IOError? <==> raw.err.value != EOF
    ensures Read(raw).err.value.IOError? ==> Read(raw).err.value.inner == raw.err.value
  {
  }

  /** Everything written on the control socket, in order. */
  function ControlBytes(effects: seq<Effect>): seq<byte>
  {
    if |effects| == 0 then []
    else (if effects[0].WriteControl? then effects[0].data else []) + ControlBytes(effects[1..])
  }

  /** Everything written to the forwarder's stdout, in order. */
  function StdoutBytes(effects: seq<Effect>): seq<byte>
  {
    if |effects| == 0 then []
    else (if effects[0].WriteStdout? then effects[0].data else []) + StdoutBytes(effects[1..])
  }

  lemma {:induction false} BytesAppend(a: seq<Effect>, b: seq<Effect>)
    ensures ControlBytes(a + b) == ControlBytes(a) + ControlBytes(b)
    ensures StdoutBytes(a + b) == StdoutBytes(a) + StdoutBytes(b)
  {
    if |a| > 0 {
      assert (a + b)[1..] == a[1..] + b;
      BytesAppend(a[1..], b);
    } else {
      assert a + b == b;
    }
  }

  lemma BytesOfOne(e: Effect)
    ensures ControlBytes([e]) == (if e.WriteControl? then e.data else [])
    ensures StdoutBytes([e]) == (if e.WriteStdout? then e.data else [])
  {
    assert [e][1..] == [];
  }

  /** Scripted results of the four steps of `Close`. Only the last one is
      looked at by `Close`; the write's result decides what the forwarder
      receives (`DeliveredFeedback`). */
  datatype CloseScript = CloseScript(
    stdinClose: Option<Error>,
    stdoutClose: Option<Error>,
    controlWrite: Option<Error>,
    controlClose: Option<Error>)

  datatype Closed = Closed(effects: seq<Effect>, err: Option<Error>)

  /** `ServeConn.Close`: both streams are closed first whatever that yields,
      then the one status byte goes to the control socket whatever that
      yields, and the control socket is closed last; only that last close
      decides the result. */
  function Close(c: ServeConn, s: CloseScript): (r: Closed)
    ensures |r.effects| == 4
    ensures r.effects[0] == CloseStdin && r.effects[1] == CloseStdout
    ensures r.effects[2] == WriteControl([c.proxyFeedback]) && r.effects[3] == CloseControl
    ensures ControlBytes(r.effects) == [c.proxyFeedback]
    ensures StdoutBytes(r.effects) == []
    ensures r.err == s.controlClose
  {
    var effects := [CloseStdin, CloseStdout, WriteControl([c.proxyFeedback]), CloseControl];
    ClosingBytes(c.proxyFeedback);
    Closed(effects, s.controlClose)
  }

  /** `Close` ignores the errors of closing the two streams and of writing
      the status byte: none of them changes what it does or returns. */
  lemma CloseReportsOnlyControlClose(c: ServeConn, s: CloseScript, other: CloseScript)
    requires other.controlClose == s.controlClose
    ensures Close(c, other) == Close(c, s)
  {
  }

  /** What of `Close`'s control-socket write reaches the forwarder: the status
      byte, unless that one-byte write failed, in which case nothing does. */
  function DeliveredFeedback(c: ServeConn, s: CloseScript): (d: seq<byte>)
    ensures s.controlWrite.None? ==> d == ControlBytes(Close(c, s).effects) == [c.proxyFeedback]
    ensures s.controlWrite.Some? ==> d == []
  {
    if s.controlWrite.None? then ControlBytes(Close(c, s).effects) else []
  }

  /** The closing sequence writes its one byte to the control socket only. */
  lemma ClosingBytes(b: byte)
    ensures ControlBytes([CloseStdin, CloseStdout, WriteControl([b]), CloseControl]) == [b]
    ensures StdoutBytes([CloseStdin, CloseStdout, WriteControl([b]), CloseControl]) == []
  {
    var e := [CloseStdin, CloseStdout, WriteControl([b]), CloseControl];
    assert ControlBytes(e[3..]) == [] && StdoutBytes(e[3..]) == [] by {
      assert e[3..][1..] == [];
    }
    assert ControlBytes(e[2..]) == [b] && StdoutBytes(e[2..]) == [] by {
      assert e[2..][1..] == e[3..];
    }
    assert ControlBytes(e[1..]) == [b] && StdoutBytes(e[1..]) == [] by {
      assert e[1..][1..] == e[2..];
    }
  }

  /** Calls made on the underlying streams' deadline setters. */
  datatype DeadlineCall =
    | StdinReadDeadline(t: int)
    | StdoutReadDeadline(t: int)
    | StdoutWriteDeadline(t: int)

  datatype DeadlineOutcome = DeadlineOutcome(conn: ServeConn, calls: seq<DeadlineCall>, err: Option<Error>)

  /** An `os.File` deadline setter; on failure the deadline stays as it was. */
  function SetFileReadDeadline(f: File, t: int, fail: Option<Error>): File
  {
    if fail.None? then f.(readDeadline := Some(t)) else f
  }

  function SetFileWriteDeadline(f: File, t: int, fail: Option<Error>): File
  {
    if fail.None? then f.(writeDeadline := Some(t)) else f
  }

  /** `ServeConn.SetReadDeadline`: the read deadline of stdin. */
  function SetReadDeadline(c: ServeConn, t: int, fail: Option<Error>): (r: DeadlineOutcome)
    ensures r.calls == [StdinReadDeadline(t)] && r.err == fail
    ensures r.conn.stdout == c.stdout && r.conn.proxyFeedback == c.proxyFeedback
    ensures r.conn.stdin.name == c.stdin.name
    ensures r.conn.stdin.readDeadline == (if fail.None? then Some(t) else c.stdin.readDeadline)
    ensures r.conn.stdin.writeDeadline == c.stdin.writeDeadline
  {
    DeadlineOutcome(c.(stdin := SetFileReadDeadline(c.stdin, t, fail)), [StdinReadDeadline(t)], fail)
  }

  /** `ServeConn.SetWriteDeadline` as written: it sets the READ deadline of
      stdout, so the write deadline of the stream `Write` uses never changes. */
  function SetWriteDeadline(c: ServeConn, t: int, fail: Option<Error>): (r: DeadlineOutcome)
    ensures r.calls == [StdoutReadDeadline(t)] && r.err == fail
    ensures r.conn.stdin == c.stdin && r.conn.proxyFeedback == c.proxyFeedback
    ensures r.conn.stdout.name == c.stdout.name
    ensures r.conn.stdout.readDeadline == (if fail.None? then Some(t) else c.stdout.readDeadline)
    ensures r.conn.stdout.writeDeadline == c.stdout.writeDeadline
  {
    DeadlineOutcome(c.(stdout := SetFileReadDeadline(c.stdout, t, fail)), [StdoutReadDeadline(t)], fail)
  }

  /** The evidently intended `SetWriteDeadline`: the write deadline of stdout. */
  function SetWriteDeadlineIntended(c: ServeConn, t: int, fail: Option<Error>): (r: DeadlineOutcome)
    ensures r.calls == [StdoutWriteDeadline(t)] && r.err == fail
    ensures r.conn.stdin == c.stdin && r.conn.proxyFeedback == c.proxyFeedback
    ensures r.conn.stdout.name == c.stdout.name
    ensures r.conn.stdout.readDeadline == c.stdout.readDeadline
    ensures r.conn.stdout.writeDeadline == (if fail.None? then Some(t) else c.stdout.writeDeadline)
  {
    DeadlineOutcome(c.(stdout := SetFileWriteDeadline(c.stdout, t, fail)), [StdoutWriteDeadline(t)], fail)
  }

  /** `ServeConn.SetDeadline`: both setters are always called, the write
      setter first; its error wins over the read setter's. `werr` and `rerr`
      are what the two underlying setters return. */
  function SetDeadline(c: ServeConn, t: int, werr: Option<Error>, rerr: Option<Error>): (r: DeadlineOutcome)
    ensures r.calls == [StdoutReadDeadline(t), StdinReadDeadline(t)]
    ensures r.err == (if werr.Some? then werr else rerr)
    ensures r.conn.proxyFeedback == c.proxyFeedback
    ensures r.conn.stdin.name == c.stdin.name && r.conn.stdout.name == c.stdout.name
    ensures r.conn.stdin.readDeadline == (if rerr.None? then Some(t) else c.stdin.readDeadline)
    ensures r.conn.stdin.writeDeadline == c.stdin.writeDeadline
    ensures r.conn.stdout.readDeadline == (if werr.None? then Some(t) else c.stdout.readDeadline)
    ensures r.conn.stdout.writeDeadline == c.stdout.writeDeadline
  {
    var w := SetWriteDeadline(c, t, werr);
    var rd := SetReadDeadline(w.conn, t, rerr);
    DeadlineOutcome(rd.conn, w.calls + rd.calls, if w.err.Some? then w.err else rd.err)
  }

  /** `SetDeadline` built on the intended write setter. */
  function SetDeadlineIntended(c: ServeConn, t: int, werr: Option<Error>, rerr: Option<Error>): (r: DeadlineOutcome)
    ensures r.calls == [StdoutWriteDeadline(t), StdinReadDeadline(t)]
    ensures r.err == (if werr.Some? then werr else rerr)
    ensures r.conn.proxyFeedback == c.proxyFeedback
    ensures r.err.None? ==> r.conn.stdin.readDeadline == Some(t) && r.conn.stdout.writeDeadline == Some(t)
    ensures r.conn.stdin.name == c.stdin.name && r.conn.stdout.name == c.stdout.name
    ensures r.conn.stdin.readDeadline == (if rerr.None? then Some(t) else c.stdin.readDeadline)
    ensures r.conn.stdin.writeDeadline == c.stdin.writeDeadline
    ensures r.conn.stdout.readDeadline == c.stdout.readDeadline
    ensures r.conn.stdout.writeDeadline == (if werr.None? then Some(t) else c.stdout.writeDeadline)
  {
    var w := SetWriteDeadlineIntended(c, t, werr);
    var rd := SetReadDeadline(w.conn, t, rerr);
    DeadlineOutcome(rd.conn, w.calls + rd.calls, if w.err.Some? then w.err else rd.err)
  }

  /** As written, a deadline set successfully through `SetDeadline` never
      reaches writes; the intended version bounds them. */
  lemma SetDeadlineMissesWrites(c: ServeConn, t: int)
    requires c.stdout.writeDeadline.None?
    ensures SetDeadline(c, t, None, None).err.None?
    ensures SetDeadline(c, t, None, None).conn.stdout.writeDeadline.None?
    ensures SetDeadlineIntended(c, t, None, None).conn.stdout.writeDeadline == Some(t)
  {
  }

  /** Scripted results of everything `Accept` waits on: the socket accept, the
      descriptor receipt, the banner write to stdout, what stdin delivers, and
      the steps of the `Close` that a failure triggers. */
  datatype AcceptScript = AcceptScript(
    accept: Option<Error>,
    received: Result<seq<File>, Error>,
    bannerWrite: Option<Error>,
    stdin: Stream<Error>,
    close: CloseScript)

  /** A live connection, an error, or the runtime panic of indexing a
      descriptor list shorter than two. */
  datatype AcceptResult = Accepted(conn: ServeConn) | Refused(err: Error) | IndexPanic

  datatype AcceptOutcome = AcceptOutcome(result: AcceptResult, effects: seq<Effect>)

  /** The descriptors were received and a connection was built from them. */
  predicate Built(s: AcceptScript) {
    s.accept.None? && s.received.Ok? && |s.received.value| >= 2
  }

  /** The part of `Listener.Accept` after the connection `conn` exists: the
      banner is written before anything is read, then exactly one frame is
      read and NOT compared with the begin message; a failure closes `conn`. */
  function Greet(conn: ServeConn, s: AcceptScript): (r: AcceptOutcome)
    ensures r.result.Accepted? <==> s.bannerWrite.None? && BannerMessageLen <= |s.stdin.data|
    ensures r.result.Accepted? ==> r.result.conn == conn
    ensures !r.result.IndexPanic?
    ensures s.bannerWrite.Some? ==> r.result == Refused(IOError(s.bannerWrite.value))
    ensures s.bannerWrite.None? && |s.stdin.data| < BannerMessageLen ==>
      r.result == Refused(if s.stdin.end == EOF then EOF else IOError(s.stdin.end))
    ensures |r.effects| > 0 && r.effects[0] == WriteStdout(BannerMsg) && StdoutBytes(r.effects) == BannerMsg
    ensures forall i :: 0 <= i < |r.effects| && r.effects[i].ReadStdin? ==>
      i == 1 && r.effects[i].count == BannerMessageLen
    ensures s.bannerWrite.None? ==> |r.effects| > 1 && r.effects[1] == ReadStdin(BannerMessageLen)
    ensures r.result.Accepted? ==> r.effects == [WriteStdout(BannerMsg), ReadStdin(BannerMessageLen)]
    ensures r.result.Refused? ==>
      |r.effects| >= 4 && r.effects[|r.effects| - 4..] ==
        [CloseStdin, CloseStdout, WriteControl([conn.proxyFeedback]), CloseControl]
    ensures r.result.Refused? ==> |r.effects| == (if s.bannerWrite.Some? then 5 else 6)
    ensures ControlBytes(r.effects) == (if r.result.Refused? then [conn.proxyFeedback] else [])
  {
    var closing := Close(conn, s.close).effects;
    var w := Write(IoResult(if s.bannerWrite.None? then |BannerMsg| else 0, s.bannerWrite));
    Greeting();
    if w.err.Some? then
      ThenClose([WriteStdout(BannerMsg)], conn, s.close);
      AcceptOutcome(Refused(w.err.value), [WriteStdout(BannerMsg)] + closing)
    else
      var handshake := [WriteStdout(BannerMsg), ReadStdin(|BeginMsg|)];
      match CopyN(ConnStream(s.stdin), |BeginMsg|)
      case Err(e) =>
        ThenClose(handshake, conn, s.close);
        AcceptOutcome(Refused(e), handshake + closing)
      case Ok(_) => AcceptOutcome(Accepted(conn), handshake)
  }

  /** An effect trace that opens with the banner write, puts nothing else on
      stdout, and reads at most once, right after the banner. */
  predicate GreetingTrace(e: seq<Effect>) {
    && |e| > 0 && e[0] == WriteStdout(BannerMsg) && StdoutBytes(e) == BannerMsg
    && forall i :: 0 <= i < |e| && e[i].ReadStdin? ==> i == 1 && e[i].count == BannerMessageLen
  }

  /** The two traces `Greet` can leave before any close. */
  lemma Greeting()
    ensures GreetingTrace([WriteStdout(BannerMsg)]) && ControlBytes([WriteStdout(BannerMsg)]) == []
    ensures GreetingTrace([WriteStdout(BannerMsg), ReadStdin(|BeginMsg|)])
    ensures ControlBytes([WriteStdout(BannerMsg), ReadStdin(|BeginMsg|)]) == []
  {
    MessagesAreFrames();
    BytesOfOne(WriteStdout(BannerMsg));
    BytesOfOne(ReadStdin(|BeginMsg|));
    BytesAppend([WriteStdout(BannerMsg)], [ReadStdin(|BeginMsg|)]);
    assert [WriteStdout(BannerMsg), ReadStdin(|BeginMsg|)] == [WriteStdout(BannerMsg)] + [ReadStdin(|BeginMsg|)];
  }

  /** Closing after a greeting keeps it a greeting and ends with the closing sequence. */
  lemma ThenClose(pre: seq<Effect>, c: ServeConn, cs: CloseScript)
    requires GreetingTrace(pre) && ControlBytes(pre) == []
    ensures var e := pre + Close(c, cs).effects;
      && GreetingTrace(e) && ControlBytes(e) == [c.proxyFeedback]
      && |e| == |pre| + 4 && e[|e| - 4..] == [CloseStdin, CloseStdout, WriteControl([c.proxyFeedback]), CloseControl]
      && (|pre| > 1 ==> e[1] == pre[1])
  {
    var closing := Close(c, cs).effects;
    var e := pre + closing;
    BytesAppend(pre, closing);
    assert e[|e| - 4..] == closing;
  }

  /** `Listener.Accept`. The connection is built with status byte 0 from the
      first received stream as stdin and the second as stdout, and `Greet`
      runs the banner exchange on it. A failure to receive the descriptors
      closes the socket; too few descriptors is an index panic. */
  function Accept(s: AcceptScript): (r: AcceptOutcome)
    ensures s.accept.Some? ==> r == AcceptOutcome(Refused(s.accept.value), [])
    ensures s.accept.None? && s.received.Err? ==>
      r == AcceptOutcome(Refused(s.received.error), [CloseUnixConn])
    ensures r.result.IndexPanic? <==> s.accept.None? && s.received.Ok? && |s.received.value| < 2
    ensures r.result.Accepted? <==>
      Built(s) && s.bannerWrite.None? && BannerMessageLen <= |s.stdin.data|
    ensures r.result.Accepted? ==>
      r.result.conn == ServeConn(s.received.value[0], s.received.value[1], 0)
    ensures Built(s) && s.bannerWrite.Some? ==> r.result == Refused(IOError(s.bannerWrite.value))
    ensures Built(s) && s.bannerWrite.None? && |s.stdin.data| < BannerMessageLen ==>
      r.result == Refused(if s.stdin.end == EOF then EOF else IOError(s.stdin.end))
    ensures Built(s) ==> |r.effects| > 0 && r.effects[0] == WriteStdout(BannerMsg) && StdoutBytes(r.effects) == BannerMsg
    ensures forall i :: 0 <= i < |r.effects| && r.effects[i].ReadStdin? ==>
      i == 1 && r.effects[0] == WriteStdout(BannerMsg) && r.effects[i].count == BannerMessageLen
    ensures Built(s) && s.bannerWrite.None? ==> |r.effects| > 1 && r.effects[1] == ReadStdin(BannerMessageLen)
    ensures r.result.Accepted? ==> r.effects == [WriteStdout(BannerMsg), ReadStdin(BannerMessageLen)]
    ensures Built(s) && r.result.Refused? ==>
      |r.effects| >= 4 && r.effects[|r.effects| - 4..] == [CloseStdin, CloseStdout, WriteControl([0]), CloseControl]
    ensures Built(s) && r.result.Refused? ==> |r.effects| == (if s.bannerWrite.Some? then 5 else 6)
    ensures ControlBytes(r.effects) == (if Built(s) && r.result.Refused? then [0] else [])
  {
    match s.accept
    case Some(e) => AcceptOutcome(Refused(e), [])
    case None =>
      match s.received
      case Err(e) =>
        BytesOfOne(CloseUnixConn);
        AcceptOutcome(Refused(e), [CloseUnixConn])
      case Ok(files) =>
        if |files| < 2 then AcceptOutcome(IndexPanic, [])
        else Greet(ServeConn(files[0], files[1], 0), s)
  }

  /** As written, `Accept` takes any frame in place of the begin message: the
      outcome does not depend on which bytes arrive, only on how many. */
  lemma AcceptIgnoresBeginBytes(s: AcceptScript, other: seq<byte>)
    requires BannerMessageLen <= |s.stdin.data| && BannerMessageLen <= |other|
    ensures Accept(s.(stdin := s.stdin.(data := other))) == Accept(s)
  {
  }

  /** The evidently intended `Accept`: a frame other than the begin message is
      a protocol error, and the connection is closed. */
  function AcceptChecked(s: AcceptScript): (r: AcceptOutcome)
    ensures r.result.Accepted? <==>
      Accept(s).result.Accepted? && s.stdin.data[..BannerMessageLen] == BeginMsg
    ensures Accept(s).result.Accepted? && s.stdin.data[..BannerMessageLen] != BeginMsg ==>
      && r.result == Refused(ProtocolError(MissingBegin(s.stdin.data[..BannerMessageLen])))
      && ControlBytes(r.effects) == [0]
      && r.effects == Accept(s).effects + [CloseStdin, CloseStdout, WriteControl([0]), CloseControl]
    ensures !Accept(s).result.Accepted? ==> r == Accept(s)
  {
    var a := Accept(s);
    if a.result.Accepted? && s.stdin.data[..BannerMessageLen] != BeginMsg then
      var closing := Close(a.result.conn, s.close).effects;
      BytesAppend(a.effects, closing);
      AcceptOutcome(Refused(ProtocolError(MissingBegin(s.stdin.data[..BannerMessageLen]))), a.effects + closing)
    else a
  }

  /** Deadline calls a user of a connection may make between `Accept` and `Close`. */
  datatype DeadlineOp =
    | SetBoth(t: int, werr: Option<Error>, rerr: Option<Error>)
    | SetRead(t: int, err: Option<Error>)
    | SetWrite(t: int, err: Option<Error>)

  function ApplyDeadlines(c: ServeConn, ops: seq<DeadlineOp>): ServeConn
    decreases |ops|
  {
    if |ops| == 0 then c
    else
      var next := match ops[0]
        case SetBoth(t, werr, rerr) => SetDeadline(c, t, werr, rerr).conn
        case SetRead(t, err) => SetReadDeadline(c, t, err).conn
        case SetWrite(t, err) => SetWriteDeadline(c, t, err).conn;
      ApplyDeadlines(next, ops[1..])
  }

  lemma {:induction false} DeadlinesKeepFeedback(c: ServeConn, ops: seq<DeadlineOp>)
    ensures ApplyDeadlines(c, ops).proxyFeedback == c.proxyFeedback
    decreases |ops|
  {
    if |ops| > 0 {
      var next := match ops[0]
        case SetBoth(t, werr, rerr) => SetDeadline(c, t, werr, rerr).conn
        case SetRead(t, err) => SetReadDeadline(c, t, err).conn
        case SetWrite(t, err) => SetWriteDeadline(c, t, err).conn;
      DeadlinesKeepFeedback(next, ops[1..]);
    }
  }

  /** The status byte is set to 0 when `Accept` builds the connection and no
      operation changes it, so every `Close` of an accepted connection writes
      exactly the byte 0, which arrives unless the write fails. */
  lemma AcceptedConnCloseSendsZero(s: AcceptScript, ops: seq<DeadlineOp>, cs: CloseScript)
    requires Accept(s).result.Accepted?
    ensures ControlBytes(Close(ApplyDeadlines(Accept(s).result.conn, ops), cs).effects) == [0]
    ensures DeliveredFeedback(ApplyDeadlines(Accept(s).result.conn, ops), cs)
      == (if cs.controlWrite.None? then [0] else [])
  {
    DeadlinesKeepFeedback(Accept(s).result.conn, ops);
  }
}

=== FILE: tunnel.dfy ===
/** The three actors together: what one side writes is what the other reads.
    These lemmas connect the dialing side, the forwarder and the accepting side
    through the bytes each puts on the wire.
 */
module Tunnel {
  import opened Base
  import opened Framing
  import opened Errors
  import opened CommandLine
  import opened Dialer
  import F = Forwarder
  import S = Serve

  /** Accept's setup went through: the descriptors arrived and the banner was written. */
  predicate BannerWritten(s: S.AcceptScript) {
    S.Built(s) && s.bannerWrite.None?
  }

  /** The dialing side, reading what `Accept` wrote, sends the begin message
      and finishes without error; `Accept` reading those bytes back returns a
      live connection, also under the begin check it evidently intends. */
  lemma HandshakeAgreement(endpoint: Endpoint, s: S.AcceptScript, rest: seq<byte>, end: RwcError, more: seq<byte>)
    requires BannerWritten(s)
    requires
      var dialerSees := Stream(S.StdoutBytes(S.Accept(s).effects) + rest, end);
      s.stdin.data == Handshake(dialerSees, None).sent + more
    ensures
      var dialerSees := Stream(S.StdoutBytes(S.Accept(s).effects) + rest, end);
      && Handshake(dialerSees, None) == HandshakeResult(BeginMsg, None)
      && Dial(endpoint, DialScript(None, None, dialerSees, None, HandshakeFirst)).result
         == Ok(SSHConn(CmdArgs(endpoint)))
      && S.Accept(s).result.Accepted?
      && S.AcceptChecked(s).result.Accepted?
  {
    var dialerSees := Stream(S.StdoutBytes(S.Accept(s).effects) + rest, end);
    assert Leads(dialerSees.data, BannerMsg);
    assert Handshake(dialerSees, None).sent == BeginMsg;
  }

  /** A forwarder that cannot connect to the socket or hand over the streams
      makes `Dial` fail with the protocol error that points at the remote
      configuration, not with an ssh error. */
  lemma ForwarderSetupFailureIsProtocolError(endpoint: Endpoint, ps: F.ProxyScript, rest: seq<byte>, end: RwcError, w: Option<RwcError>)
    requires ps.dial.Some? || (ps.nonblockStdin.None? && ps.nonblockStdout.None? && ps.put.Some?)
    ensures
      var dialerSees := Stream(F.StdoutBytes(F.Proxy(ps).steps) + rest, end);
      && Dial(endpoint, DialScript(None, None, dialerSees, w, HandshakeFirst)).result
         == Err(ProtocolError(ProxyErrorReported))
      && ProtocolText(ProxyErrorReported) == "proxy error, check remote configuration"
      && F.ExitCode(F.Proxy(ps)) != 0
  {
    F.ProxyStdout(ps);
    ProxyErrorFrameFailsDial(endpoint, rest, end, w);
  }

  /** Whatever follows the forwarder's error frame, a `Dial` whose handshake
      reads it reports the protocol error. */
  lemma ProxyErrorFrameFailsDial(endpoint: Endpoint, rest: seq<byte>, end: RwcError, w: Option<RwcError>)
    ensures Dial(endpoint, DialScript(None, None, Stream(ProxyErrorMsg + rest, end), w, HandshakeFirst)).result
      == Err(ProtocolError(ProxyErrorReported))
  {
    MessagesAreFrames();
    MessagesDistinct();
    var data := ProxyErrorMsg + rest;
    assert data[..BannerMessageLen] == ProxyErrorMsg;
    assert Leads(data, ProxyErrorMsg) && !Leads(data, BannerMsg);
  }

  /** A forwarder that fails to make its streams non-blocking writes nothing
      and exits non-zero; ssh passes that status on, and `Dial` reports an
      `SSHError` for reading the banner. */
  lemma NonblockFailureIsSSHError(endpoint: Endpoint, ps: F.ProxyScript, stderr: seq<byte>, w: Option<RwcError>)
    requires ps.dial.None? && (ps.nonblockStdin.Some? || ps.nonblockStdout.Some?)
    ensures
      var exit := RwcExit(Exited(F.ExitCode(F.Proxy(ps))), stderr);
      && F.StdoutBytes(F.Proxy(ps).steps) == []
      && Dial(endpoint, DialScript(None, None, Stream(F.StdoutBytes(F.Proxy(ps).steps), exit), w, HandshakeFirst)).result
         == Err(SSHError(exit, "read banner"))
      && F.ExitCode(F.Proxy(ps)) == 1
  {
    F.ProxyStdout(ps);
    SilentPeerFailsDial(endpoint, RwcExit(Exited(F.ExitCode(F.Proxy(ps))), stderr), w);
  }

  /** A command that writes nothing before it ends makes `Dial` fail while
      reading the banner, with the command's end as the cause. */
  lemma SilentPeerFailsDial(endpoint: Endpoint, end: RwcError, w: Option<RwcError>)
    ensures Dial(endpoint, DialScript(None, None, Stream([], end), w, HandshakeFirst)).result
      == Err(SSHError(end, "read banner"))
  {
    MessagesAreFrames();
  }

  /** How the forwarder's one-byte read sees the control socket after the
      accepting side wrote `bytes` and closed it: a byte arrives without an
      error, and the end of the stream shows only on a later read. */
  function ReadControl(bytes: seq<byte>): F.StatusRead
  {
    if |bytes| > 0 then F.StatusRead(Some(bytes[0]), None) else F.StatusRead(None, Some(EOF))
  }

  /** Closing an accepted connection, after any deadline calls, lets a
      forwarder whose setup succeeded report success and exit with status 0
      exactly when the status byte's write succeeds; when it fails, the
      forwarder sees the end of the stream without a byte and exits 1. */
  lemma CloseEndsForwarderCleanly(s: S.AcceptScript, ops: seq<S.DeadlineOp>, cs: S.CloseScript, ps: F.ProxyScript)
    requires S.Accept(s).result.Accepted?
    requires ps.dial.None? && ps.nonblockStdin.None? && ps.nonblockStdout.None? && ps.put.None?
    requires ps.status == ReadControl(S.DeliveredFeedback(S.ApplyDeadlines(S.Accept(s).result.conn, ops), cs))
    ensures F.Proxy(ps).err.None? <==> cs.controlWrite.None?
    ensures F.ExitCode(F.Proxy(ps)) == 0 <==> cs.controlWrite.None?
    ensures cs.controlWrite.Some? ==> F.Proxy(ps).err == Some(AbnormalTermination)
    ensures F.FinalStatusIntended(ps.status).None? <==> cs.controlWrite.None?
  {
    S.AcceptedConnCloseSendsZero(s, ops, cs);
  }

  /** The forwarder's verdict on a closed connection, as written and as
      intended, for any status byte: as written every byte that arrives is
      success; only the intended check tells a non-zero byte apart. A byte
      that never arrives, because its write failed or the server went away
      without closing, is abnormal under both. */
  lemma StatusByteVerdicts(c: S.ServeConn, cs: S.CloseScript)
    ensures F.FinalStatus(ReadControl(S.DeliveredFeedback(c, cs))).None? <==> cs.controlWrite.None?
    ensures F.FinalStatusIntended(ReadControl(S.DeliveredFeedback(c, cs))).None?
      <==> cs.controlWrite.None? && c.proxyFeedback == 0
    ensures F.FinalStatus(ReadControl([])) == Some(AbnormalTermination)
    ensures F.FinalStatusIntended(ReadControl([])) == Some(AbnormalTermination)
  {
  }
}
